=== FILE: README.md ===
# Race-card parsing core of the Nankan keiba bot

This project models the pure string logic of the race-card parser in
`keiba_bot.py`. The scraper reads a regional horse-racing entry page. For
every runner it resolves the abbreviated jockey and trainer names against
reference lists. It looks up the jockey's "power" rating for the current
course and for the course of the most recent race. It then prints up to
three recent-race history lines and one display line per horse.

The page traversal (BeautifulSoup selectors and the regular expressions that
pull dates, distances, ranks and similar facts out of the HTML) is replaced
by its results. The model takes the extracted strings as inputs, with
`Option` standing for "the element or match was not there". Everything
downstream of that extraction is modelled as pure functions over
`seq<char>`, in the branch order of the Python code.

Modules, one file each:

- `Options` (options.dfy): the optional value, usable with `:-`.
- `Strings` (strings.dfy): the Python string operations the code relies on,
  stated over `seq<char>`:
  - `str.strip()` with the `str.isspace` character set;
  - `re.sub` with a character class;
  - `str.replace(pat, "")`, left to right and non-overlapping;
  - `in`;
  - `sep.join`.

  `Strings.SplitOn` has no counterpart in the code, which never calls
  `str.split`. It exists only to state that `join` can be undone.
- `Resources` (resources.dfy): the cleaning of the jockey and trainer list
  files, line by line.
- `Names` (names.dfy): `normalize_name`, plus the weight stripping and the
  raw-name fallback used for past-race jockeys.
- `RaceTitle` (race_title.dfy): the `re.split(r'[ 　]+', …)` of the race
  title and the grade taken from it.
- `Venues` (venues.dfy): `PLACE_MAP`, `KNOWN_PLACES`, the date fallback and
  the past-race venue search.
- `History` (history.dfy): the fields of one past race, the history line
  printed from them, and a reader that takes the line apart again.
- `Power` (power.dfy): current power, previous power (slot 1 only), the
  compatibility text and the display line.
- `Horses` (horses.dfy): one runner's entry assembled from the above.

Two of the properties are stated against independent reference definitions
rather than the code's own steps:

- `normalize_name` returns the *earliest shortest covering entry*
  (`Names.IsFirstShortest`), which is what the stable sort followed by
  `[0]` computes.
- The venue search returns what `Venues.IsResolvedVenue` describes: the first
  full name that occurs; failing that, the full name of the first
  abbreviation that occurs; failing that, the current course.

The history line comes with a reader (`History.ParseHistory`). Printing a
line and then reading it back returns every field, placeholders included.
This holds when the fields are separable (`History.Separable`): the date,
the course and the jockey hold no space, the passing order holds no "(" or
"→", the 3F text holds no "→" and the rank holds no "着". The venue and the
distance are printed with nothing between them, so they come back joined
as one course field.

## Model

| member | source | states |
|---|---|---|
| Strings.Filter | keiba_bot.py:40 | the filtered text is no longer than the input and holds exactly the input's characters that pass the test |
| Strings.FilterAppend | keiba_bot.py:40 | filtering the two halves and joining them equals filtering the whole, so order and repetition are kept |
| Strings.FilterIdempotent | keiba_bot.py:40 | filtering twice with the same test removes nothing more |
| Strings.FilterKeepsAll | keiba_bot.py:40 | text whose every character passes the test comes through unchanged |
| Strings.FilterTwice | keiba_bot.py:13 | filtering by one test and then another is filtering once by a test that asks for both |
| Strings.Strip | keiba_bot.py:13 | the result is a slice `s[i..j]` with only whitespace before `i` and from `j` on; it is empty exactly when every character is whitespace, and otherwise it neither starts nor ends with whitespace, so it is the slice between the two maximal whitespace runs |
| Strings.RemoveAll | keiba_bot.py:131 | `replace(pat, "")` never lengthens the text and brings in no new character; what it deletes is stated by the lemmas below |
| Strings.RemoveAllAbsent | keiba_bot.py:131 | `replace(pat, "")` leaves text unchanged when `pat` does not occur in it |
| Strings.RemoveAllFirst | keiba_bot.py:131 | the text before the first occurrence of the pattern is kept, that occurrence is deleted, and deleting goes on after it |
| Strings.RemoveCharIsFilter | keiba_bot.py:13 | deleting a one-character pattern keeps exactly the other characters, in order |
| Strings.RemoveCharGone | keiba_bot.py:13 | after `replace(c, "")` with a one-character pattern, no `c` is left |
| Strings.Join | keiba_bot.py:189 | the joined text starts with the first part, and with the first part and the separator when there are several parts; `SplitOnJoin` gives the exact inverse |
| Strings.SplitOnJoin | keiba_bot.py:189 | splitting on `c` undoes joining with `c`, provided no part contains `c` |
| Resources.CleanListLine | keiba_bot.py:13 | a cleaned list line is the stripped line with every comma, ASCII space and ideographic space removed and the other characters kept in order |
| Resources.LoadNameList | keiba_bot.py:13 | the loaded list is no longer than the file, and no entry holds a comma or either kind of space |
| Resources.LoadNameListLine | keiba_bot.py:13 | one line loads as nothing when it is blank once stripped, and as its cleaned text otherwise |
| Resources.LoadNameListAppend | keiba_bot.py:13 | loading two files end to end gives the two lists end to end; with the one-line case this pins down the whole list |
| Names.Clean | keiba_bot.py:40 | a character is in the cleaned name exactly when it is in the abbreviation and is not a space, an ideographic space, one of ▲△☆◇★, a digit or a dot; decoration-free text is unchanged |
| Names.CleanAppend | keiba_bot.py:40 | cleaning works character by character, so the kept characters keep their order and repetition |
| Names.CleanIdempotent | keiba_bot.py:40 | cleaning a cleaned name changes nothing |
| Names.Candidates | keiba_bot.py:44-47 | every candidate's full name contains every character of the cleaned name, and its key is its length minus the cleaned name's length |
| Names.Origins | keiba_bot.py:44-47 | each candidate is the list entry at its origin, and the origins strictly increase, so candidates keep list order |
| Names.OriginsCover | keiba_bot.py:45-47 | every list entry that covers the cleaned name gives a candidate |
| Names.InsertByKey | keiba_bot.py:49 | inserting adds exactly the one pair, which lands at the front or behind the old head |
| Names.InsertKeepsOrder | keiba_bot.py:49 | inserting into a key-ordered list keeps it key-ordered |
| Names.SortByKey | keiba_bot.py:49 | the sorted candidates are a permutation of the candidates, ordered by key |
| Names.FirstMinKey | keiba_bot.py:49-50 | the chosen position holds a smallest key, and every earlier position holds a strictly larger one |
| Names.SortedHeadIsFirstMin | keiba_bot.py:49-50 | after the stable sort, the head is the earliest candidate of smallest key |
| Names.Resolve | keiba_bot.py:42-51 | a nonempty cleaned name resolves to itself or to a list entry that covers it, and never to the empty string |
| Names.NormalizeName | keiba_bot.py:38-51 | the result is empty exactly when the cleaned name is; it is the cleaned name or a list entry; an empty list or an exact match gives the cleaned name; any other result covers the cleaned name; no covering entry gives the cleaned name |
| Names.FirstCandidateIsFirstShortest | keiba_bot.py:44-50 | the first-minimal candidate came from the earliest shortest covering list entry |
| Names.NormalizeNameShortestFirst | keiba_bot.py:44-50 | without an exact match but with some covering entry, the result is the covering entry of least length, ties going to the earliest |
| Names.NormalizeNameIdempotent | keiba_bot.py:38-51 | normalizing a normalized name changes nothing when the list entries are free of decoration |
| Names.StripWeight | keiba_bot.py:171 | a character survives exactly when it is neither a digit nor a dot; a cell with neither is unchanged |
| Names.StripWeightAppend | keiba_bot.py:171 | dropping the weight works character by character, so the name keeps its order and repetition |
| Names.PastJockeyName | keiba_bot.py:192-193 | the result is empty only for an empty name; a name made only of decoration comes back raw; otherwise the result is exactly what `normalize_name` returns for it, so `Names.NormalizeNameShortestFirst` applies |
| RaceTitle.SplitTitle | keiba_bot.py:61 | the pieces are free of separators; the last piece is the longest separator-free suffix; there is more than one piece exactly when the title holds a separator |
| RaceTitle.Grade | keiba_bot.py:60-62 | no grade is set for an empty title; a title without a space gives ""; otherwise the grade is the text after the last space run, shorter than the title |
| Venues.PlaceTablesAgree | keiba_bot.py:73-74 | `KNOWN_PLACES` is the map's values in insertion order followed by "JRA", the abbreviations are its keys in the same order, and no course name holds a space |
| Venues.SearchText | keiba_bot.py:131 | with no date, or a date that does not occur, the text is unchanged, and the result is never longer |
| Venues.SearchTextCutsDate | keiba_bot.py:131 | the text before the date's first occurrence is kept, the occurrence is cut out, and cutting goes on after it |
| Venues.FirstContained | keiba_bot.py:132-140 | the search stops at the first name that occurs in the text; finding none means none occurs |
| Venues.ResolveVenue | keiba_bot.py:130-143 | without a date block the venue is the current course; otherwise it is the first full name that occurs, else the course of the first abbreviation that occurs, else the current course |
| Venues.DateText | keiba_bot.py:127-128 | the date is the one found in the block, or "不明" when none was found, and never empty |
| History.RankText | keiba_bot.py:150-152 | no position gives ""; otherwise the result is the text with every "着" filtered out and every other character kept in order, so text without "着" comes back unchanged; it is empty exactly when the text had nothing but "着" |
| History.RankTextOf | keiba_bot.py:152 | a position printed as "N着" reads as N |
| History.PastJockeyText | keiba_bot.py:155-171 | no cell gives ""; otherwise it is the cell with its weight dropped, so a character is kept exactly when it is neither a digit nor a dot, and `Names.StripWeightAppend` keeps order and repetition |
| History.PassingText | keiba_bot.py:185-189 | every character of the passing order other than "-" comes from one of the spans; `History.PassingReadsBack` gives the exact inverse |
| History.PassingReadsBack | keiba_bot.py:188-189 | the passing order splits back at "-" into exactly its spans, when there is at least one span and none holds "-" |
| History.AgariText | keiba_bot.py:175-182 | the 3F text is empty exactly when no 3F rank was found; otherwise it reads "3F:N位" with N the rank found |
| History.PopularityText | keiba_bot.py:161-163 | the popularity text is empty exactly when none was found; otherwise it is the number followed by "人" |
| History.Fields | keiba_bot.py:120-193 | the date is never empty and the venue is the resolved venue; the rank, jockey, 3F and popularity fields are empty exactly in the cases the code leaves them empty |
| History.AgariPart | keiba_bot.py:205 | the 3F text in parentheses, "()" when it is empty |
| History.PopPart | keiba_bot.py:206 | nothing for no popularity, otherwise the popularity in parentheses |
| History.RankPart | keiba_bot.py:207 | the position followed by "着", or "着不明" when there is none |
| History.FormatHistory | keiba_bot.py:209 | the line starts with the date and a space, and its length is that of the fields, three spaces, "→" and the three parts, so nothing else is printed |
| History.HistoryLine | keiba_bot.py:142-209 | the line of a past race starts with its date, or "不明", and a space |
| History.RankRoundTrip | keiba_bot.py:207 | the finishing position is the text before the first "着", and "着不明" marks a missing one |
| History.PopPartReadsBack | keiba_bot.py:206 | the popularity part passes the reader's bracket check, and the text between the brackets is the popularity |
| History.ResultRoundTrip | keiba_bot.py:206-207 | the finishing position and the popularity read back from "rank着(pop)", including "着不明" and an absent popularity |
| History.PassingRoundTrip | keiba_bot.py:205 | the passing order and "(agari)" separate at the first "(", including "()" |
| History.ArrowSplit | keiba_bot.py:209 | the text before the first "→" is the passing order with its 3F part |
| History.TailRoundTrip | keiba_bot.py:205-209 | the passing order, 3F rank, finishing position and popularity read back from the tail of the line |
| History.HistoryRoundTrip | keiba_bot.py:205-209 | reading a line of separable fields back gives its date, course-plus-distance, jockey, passing order, 3F rank, finishing position and popularity |
| History.PastJockeyNameSpaceFree | keiba_bot.py:192-193 | the past-race jockey name holds no space when the list holds none and the name holds none or keeps something once cleaned |
| History.FieldsSeparable | keiba_bot.py:120-193 | the fields of a past race are separable when the page's text holds none of the separators |
| History.HistoryLineReadsBack | keiba_bot.py:120-209 | the line of a past race reads back as its date or "不明", resolved venue plus distance, normalized jockey, joined passing order, 3F text, rank and popularity |
| Power.CurrentPower | keiba_bot.py:98 | the current power is "P:" followed by the table's value for (course, jockey), or "P:不明" when the key is absent |
| Power.Truthy | keiba_bot.py:213 | `if prev_power_val:` holds for nonempty text and for a number that is not zero, NaN included |
| Power.PreviousPower | keiba_bot.py:195-201 | only slot 1 is looked up, under its resolved venue and jockey; the value is present exactly when that key is in the table |
| Power.PairStats | keiba_bot.py:101-107 | the text is "-" exactly when the cell is missing or mentions "データ"; otherwise it starts with "勝" |
| Power.PairStatsReadsBack | keiba_bot.py:107 | the rate, wins and total come back out of "勝r(w/t)" when the rate holds no "(" and the wins no "/" |
| Power.PowerLine | keiba_bot.py:212-216 | the display line starts with "【騎手】" and the current power, and ends with "、 相性:" and the compatibility; between the two there is exactly "(前P:v)", with v the previous power as printed, when the previous power is truthy, and nothing otherwise; when neither input holds "前", the line holds one exactly when the previous power is truthy |
| Horses.PresentRaces | keiba_bot.py:113-118 | the races of the present cells, in slot order: slot 1 first, then slot 2, with slot 3 last, at most three in all |
| Horses.Histories | keiba_bot.py:113-210 | one history line per present cell, in slot order |
| Horses.ParseHorse | keiba_bot.py:86-216 | jockey and trainer are normalized against their lists; the current power is looked up or "P:不明"; the history is one line per present cell, in slot order; the compatibility text is the pair statistics of the row; the display line is built from the current power, slot 1's previous power and that text, and when neither of those texts holds "前" it has one exactly when slot 1's previous power is truthy |
| Horses.DisplayPowerIgnoresOlderRaces | keiba_bot.py:195-201 | rows that differ only in past-race slots 2 and 3 get the same display line |

## Left out

- The HTML traversal of `parse_nankankeiba_detail`:
  - the selectors;
  - `get_text`;
  - the regular expressions for the date (line 127), distance (146),
    popularity (162) and 3F rank (180).
  Their results are inputs (`History.PastRace`, `Horses.Row`). When several
  lines match the 3F pattern the code keeps the last match; the model takes
  that final value as given.
- `RaceTitle.SplitTitle`: finds the separator runs from the end of the title
  rather than the start. For maximal runs this gives the same pieces as
  `re.split`. Only the last piece feeds the grade.
- The race-name and course metadata (lines 58-59, 63-64), the runner-number
  check and the horse name (lines 79-84): these are DOM lookups with no logic
  beyond a default value.
- The early returns when the detail area or the table is missing (lines
  66-70): the model starts from the rows of a table that exists.
- The CSV half of `load_resources` (lines 16-35): pandas file reading. Its
  result is the `Power.PowerTable` input. Both `power` and `power_data` are
  filled from the same rows under the same key, so one table models both.
- `Power.Shown`: abstracts Python's `str()` of a pandas cell, including float
  formatting and NaN, as a `Cell` that carries its printed form and whether
  it is zero.
- File existence checks, file reading and `st.cache_resource` (lines 4-14):
  I/O. Only the per-line transform at line 13 is modelled.
- The `try`/`except` blocks (lines 14, 34, 77, 225): they skip a failing file
  or row and have no behaviour beyond that.
- `Names.SortByKey`: states that the result is a key-ordered permutation.
  Stability, that equal keys keep their input order, is stated only for the
  head of the list (`Names.SortedHeadIsFirstMin`), which is the only element
  the code reads.
- `Power.Truthy`: Python's truthiness of the cell. For a text it is
  "nonempty"; for a number it is "not zero", with NaN counted as truthy. The
  number itself is abstracted away.
- `Names.IsDigit`: covers ASCII and full-width decimal digits. Python's `\d`
  also matches other Unicode decimal digits, which do not occur in jockey
  names.
- main.py: the Streamlit UI, session state and the remote prediction calls.
  This is UI and network code.

=== FILE: history.dfy ===
/** One line of a horse's recent-race history (keiba_bot.py:112-210): the
    facts extracted from a past-race cell, the placeholders that stand in
    for missing ones, and the line they are printed into,
    `date venue+distance jockey passing(agari)→rank着(popularity)`. */
module History {
  import opened Options
  import opened Strings
  import opened Names
  import opened Venues

  /** What the page yields for one past race, before any formatting. Each
      `None` is an element or pattern match the cell did not have. */
  datatype PastRace = PastRace(
    dateBlock: Option<DateBlock>,    // the date-and-course paragraph
    distance: string,                // the `\d{3,4}` match, or empty
    rankText: Option<string>,        // text of the finishing-position element
    popularity: Option<string>,      // digits of the `N人気` match
    jockeyCell: Option<string>,      // second span of the popularity paragraph
    agariRank: Option<string>,       // digits of the `3F ... (N)` match
    passing: Option<seq<string>>)    // spans of the passing-order paragraph

  /** The variables the history f-string is filled from. */
  datatype HistoryFields = HistoryFields(
    date: string, venue: string, distance: string, jockey: string,
    passing: string, agari: string, rank: string, popularity: string)

  /** Every character but the rank mark "着". */
  predicate IsNotRankMark(c: char) {
    c != '着'
  }

  /** `rank`: the finishing position with every "着" removed (line 152). */
  function RankText(rankText: Option<string>): (rank: string)
    ensures rankText.None? ==> rank == []
    ensures rankText.Some? ==> rank == Filter(rankText.value, IsNotRankMark)
    ensures rankText.Some? ==> forall c :: c in rank <==> c in rankText.value && c != '着'
    ensures '着' !in rank
    ensures rank == [] <==> rankText.None? || forall c :: c in rankText.value ==> c == '着'
  {
    match rankText
    case None => []
    case Some(t) =>
      RemoveCharGone(t, '着');
      RemoveCharIsFilter(t, '着', IsNotRankMark);
      var rank := RemoveAll(t, "着");
      assert rank != [] ==> rank[0] in rank;
      rank
  }

  /** A position printed as "N着" reads as N. */
  lemma RankTextOf(n: string)
    requires '着' !in n
    ensures RankText(Some(n + "着")) == n
  {
    forall k: nat | k < |n| ensures !OccursAt(n + "着" + [], "着", k) {
      assert (n + "着" + [])[k] == n[k];
    }
    RemoveAllFirst(n, "着", []);
    assert n + "着" + [] == n + "着";
  }

  /** `j_prev`: the jockey cell without its weight, or empty (lines 155-171). */
  function PastJockeyText(jockeyCell: Option<string>): (j: string)
    ensures jockeyCell.None? ==> j == []
    ensures jockeyCell.Some? ==> forall c :: c in j <==> c in jockeyCell.value && !IsDigit(c) && c != '.'
    ensures jockeyCell.Some? ==> j == StripWeight(jockeyCell.value)
  {
    match jockeyCell
    case None => []
    case Some(cell) => StripWeight(cell)
  }

  /** `pas`: the passing-order spans joined with "-" (lines 185-189). */
  function PassingText(spans: Option<seq<string>>): (pas: string)
    ensures forall c :: c in pas && c != '-' ==> spans.Some? && exists k :: 0 <= k < |spans.value| && c in spans.value[k]
  {
    match spans
    case None => []
    case Some(s) =>
      assert forall c :: c in Join(s, "-") && c != '-' ==> exists k :: 0 <= k < |s| && c in s[k] by {
        forall c | c in Join(s, "-") && c != '-'
          ensures exists k :: 0 <= k < |s| && c in s[k]
        {
          JoinChars(s, "-", c);
        }
      }
      Join(s, "-")
  }

  /** The passing order splits back into its spans at "-", provided there
      is at least one span and no span holds "-". */
  lemma PassingReadsBack(spans: seq<string>)
    requires |spans| > 0
    requires forall k :: 0 <= k < |spans| ==> '-' !in spans[k]
    ensures SplitOn(PassingText(Some(spans)), '-') == spans
  {
    SplitOnJoin(spans, '-');
  }

  /** `agari`: "3F:N位" for the 3F rank N, or empty (lines 175-182). */
  function AgariText(agariRank: Option<string>): (agari: string)
    ensures agari == [] <==> agariRank.None?
    ensures agariRank.Some? ==> "3F:" <= agari && agari[|agari| - 1] == '位'
    ensures agariRank.Some? ==> agari[3..|agari| - 1] == agariRank.value
  {
    match agariRank
    case None => []
    case Some(n) => "3F:" + n + "位"
  }

  /** `pop`: "N人" for the popularity N, or empty (lines 161-163). */
  function PopularityText(popularity: Option<string>): (pop: string)
    ensures pop == [] <==> popularity.None?
    ensures popularity.Some? ==> pop[|pop| - 1] == '人' && pop[..|pop| - 1] == popularity.value
  {
    match popularity
    case None => []
    case Some(n) => n + "人"
  }

  /** The fields of one past race (lines 120-193). */
  function Fields(race: PastRace, current: string, jockeys: seq<string>): (f: HistoryFields)
    ensures f.date != [] && f.venue == ResolveVenue(race.dateBlock, current)
    ensures '着' !in f.rank
    ensures f.rank == [] <==> race.rankText.None? || forall c :: c in race.rankText.value ==> c == '着'
    ensures f.jockey == [] <==> PastJockeyText(race.jockeyCell) == []
    ensures f.agari == [] <==> race.agariRank.None?
    ensures f.popularity == [] <==> race.popularity.None?
  {
    HistoryFields(
      DateText(race.dateBlock),
      ResolveVenue(race.dateBlock, current),
      race.distance,
      PastJockeyName(PastJockeyText(race.jockeyCell), jockeys),
      PassingText(race.passing),
      AgariText(race.agariRank),
      RankText(race.rankText),
      PopularityText(race.popularity))
  }

  /** `agari_part` (line 205): the 3F text in parentheses, "()" when empty. */
  function AgariPart(agari: string): (part: string)
    ensures |part| >= 2 && part[0] == '(' && part[|part| - 1] == ')'
    ensures part[1..|part| - 1] == agari
  {
    if agari != [] then "(" + agari + ")" else "()"
  }

  /** `rank_part` (line 207): the position followed by "着", or "着不明". */
  function RankPart(rank: string): (part: string)
    ensures rank != [] ==> |part| == |rank| + 1 && part[..|rank|] == rank && part[|rank|] == '着'
    ensures rank == [] ==> part == "着不明"
  {
    if rank != [] then rank + "着" else "着不明"
  }

  /** `pop_part` (line 206): the popularity in parentheses, or nothing. */
  function PopPart(popularity: string): (part: string)
    ensures part == [] <==> popularity == []
    ensures popularity != [] ==> |part| >= 2 && part[0] == '(' && part[|part| - 1] == ')'
    ensures popularity != [] ==> part[1..|part| - 1] == popularity
  {
    if popularity != [] then "(" + popularity + ")" else []
  }

  /** `h_str` (line 209): the line starts with the date and a space, and
      holds nothing but the fields, three spaces, "→" and the parts. */
  function FormatHistory(f: HistoryFields): (line: string)
    ensures f.date + " " <= line
    ensures |line| == |f.date| + |f.venue| + |f.distance| + |f.jockey| + |f.passing| + 4
      + |AgariPart(f.agari)| + |RankPart(f.rank)| + |PopPart(f.popularity)|
  {
    var line := f.date + " " + f.venue + f.distance + " " + f.jockey + " "
      + f.passing + AgariPart(f.agari) + "→" + RankPart(f.rank) + PopPart(f.popularity);
    assert line[..|f.date| + 1] == f.date + " ";
    line
  }

  /** The history line of one past race: it starts with the date, or "不明",
      and a space. */
  function HistoryLine(race: PastRace, current: string, jockeys: seq<string>): (line: string)
    ensures DateText(race.dateBlock) + " " <= line
  {
    FormatHistory(Fields(race, current, jockeys))
  }

  /** What a reader of a history line can take back out of it. The venue
      and the distance are printed without a separator, so they come back
      together. */
  datatype ParsedHistory = ParsedHistory(
    date: string, course: string, jockey: string, passing: string,
    agari: string, rank: string, popularity: string)

  /** Reads the text after "→" back into the finishing position and the
      popularity: the position runs up to "着", which is followed by "不明"
      when the position was missing, then comes the optional
      parenthesised popularity. */
  function ParseResult(text: string): Option<(string, string)> {
    var p :- SplitAt(text, '着');
    var rank := p.0;
    var _ :- Need(rank != [] || "不明" <= p.1);
    var popPart := if rank == [] then p.1[2..] else p.1;
    var _ :- Need(popPart == [] || (|popPart| >= 2 && popPart[0] == '(' && popPart[|popPart| - 1] == ')'));
    Some((rank, if popPart == [] then [] else popPart[1..|popPart| - 1]))
  }

  /** Reads the text after the jockey back: the passing order up to "(",
      the 3F rank up to ")" and "→", then the result. */
  function ParseTail(text: string): Option<(string, string, string, string)> {
    var p :- SplitAt(text, '→');
    var q :- SplitAt(p.0, '(');
    var closed := q.1;
    var _ :- Need(closed != [] && closed[|closed| - 1] == ')');
    var result :- ParseResult(p.1);
    Some((q.0, closed[..|closed| - 1], result.0, result.1))
  }

  /** Reads a history line back: three space-separated fields, then the
      tail. */
  function ParseHistory(line: string): Option<ParsedHistory> {
    var p1 :- SplitAt(line, ' ');
    var p2 :- SplitAt(p1.1, ' ');
    var p3 :- SplitAt(p2.1, ' ');
    var t :- ParseTail(p3.1);
    Some(ParsedHistory(p1.0, p2.0, p3.0, t.0, t.1, t.2, t.3))
  }

  /** The fields can be read back from the line when none of them holds
      the separator that ends it. */
  ghost predicate Separable(f: HistoryFields) {
    && ' ' !in f.date && ' ' !in f.venue + f.distance && ' ' !in f.jockey
    && '(' !in f.passing && '→' !in f.passing && '→' !in f.agari
    && '着' !in f.rank
  }

  /** The finishing position is the text before the first "着"; what follows
      starts with "不明" when the position was missing. */
  lemma RankRoundTrip(rank: string, rest: string)
    requires '着' !in rank
    ensures SplitAt(RankPart(rank) + rest, '着') == Some((rank, if rank != [] then rest else "不明" + rest))
  {
    if rank != [] {
      assert RankPart(rank) + rest == rank + ['着'] + rest;
      SplitAtFirst(rank, '着', rest);
    } else {
      assert RankPart(rank) + rest == [] + ['着'] + ("不明" + rest);
      SplitAtFirst([], '着', "不明" + rest);
    }
  }

  /** The popularity part passes the reader's bracket check, and the text
      between the brackets is the popularity. */
  lemma PopPartReadsBack(popularity: string)
    ensures var part := PopPart(popularity);
      && (part == [] || (|part| >= 2 && part[0] == '(' && part[|part| - 1] == ')'))
      && (if part == [] then [] else part[1..|part| - 1]) == popularity
  {
  }

  /** `ParseResult` one step at a time: the split at "着", the "不明"
      check, and the bracket check on what remains. */
  lemma ParseResultSteps(text: string, rank: string, after: string, popPart: string)
    requires SplitAt(text, '着') == Some((rank, after))
    requires rank != [] || "不明" <= after
    requires popPart == if rank == [] then after[2..] else after
    requires popPart == [] || (|popPart| >= 2 && popPart[0] == '(' && popPart[|popPart| - 1] == ')')
    ensures ParseResult(text) == Some((rank, if popPart == [] then [] else popPart[1..|popPart| - 1]))
  {
  }

  /** The finishing position and popularity come back out of their part of
      the line, "着不明" and an absent popularity included. */
  lemma ResultRoundTrip(rank: string, popularity: string)
    requires '着' !in rank
    ensures ParseResult(RankPart(rank) + PopPart(popularity)) == Some((rank, popularity))
  {
    var popPart := PopPart(popularity);
    var after := if rank != [] then popPart else "不明" + popPart;
    RankRoundTrip(rank, popPart);
    PopPartReadsBack(popularity);
    if rank == [] {
      assert after[..2] == "不明";
      assert after[2..] == popPart;
    }
    ParseResultSteps(RankPart(rank) + popPart, rank, after, popPart);
  }

  /** The passing order and the 3F rank come back out of the text before
      "→", "()" included. */
  lemma PassingRoundTrip(passing: string, agari: string)
    requires '(' !in passing
    ensures SplitAt(passing + AgariPart(agari), '(') == Some((passing, agari + ")"))
  {
    assert passing + AgariPart(agari) == passing + ['('] + (agari + ")");
    SplitAtFirst(passing, '(', agari + ")");
  }

  /** The text before the first "→" is the passing order with its 3F rank. */
  lemma ArrowSplit(passing: string, agari: string, result: string)
    requires '(' !in passing && '→' !in passing && '→' !in agari
    ensures SplitAt(passing + AgariPart(agari) + "→" + result, '→') == Some((passing + AgariPart(agari), result))
  {
    var pre := passing + AgariPart(agari);
    assert pre + "→" + result == pre + ['→'] + result;
    assert '→' !in pre;
    SplitAtFirst(pre, '→', result);
  }

  /** `ParseTail` assembled from its three steps. */
  lemma ParseTailSteps(text: string, pre: string, result: string, passing: string, agari: string, rank: string, popularity: string)
    requires SplitAt(text, '→') == Some((pre, result))
    requires SplitAt(pre, '(') == Some((passing, agari + ")"))
    requires ParseResult(result) == Some((rank, popularity))
    ensures ParseTail(text) == Some((passing, agari, rank, popularity))
  {
    var closed := agari + ")";
    assert closed[..|closed| - 1] == agari;
  }

  /** The passing order, 3F rank, finishing position and popularity come
      back out of the tail of the line. */
  lemma TailRoundTrip(passing: string, agari: string, rank: string, popularity: string)
    requires '(' !in passing && '→' !in passing && '→' !in agari && '着' !in rank
    ensures ParseTail(passing + AgariPart(agari) + "→" + RankPart(rank) + PopPart(popularity))
      == Some((passing, agari, rank, popularity))
  {
    var result := RankPart(rank) + PopPart(popularity);
    var text := passing + AgariPart(agari) + "→" + result;
    assert text == passing + AgariPart(agari) + "→" + RankPart(rank) + PopPart(popularity);
    ArrowSplit(passing, agari, result);
    PassingRoundTrip(passing, agari);
    ResultRoundTrip(rank, popularity);
    ParseTailSteps(text, passing + AgariPart(agari), result, passing, agari, rank, popularity);
  }

  /** Reading a history line back gives the fields it was printed from,
      placeholders included. */
  lemma HistoryRoundTrip(f: HistoryFields)
    requires Separable(f)
    ensures ParseHistory(FormatHistory(f)) ==
      Some(ParsedHistory(f.date, f.venue + f.distance, f.jockey, f.passing, f.agari, f.rank, f.popularity))
  {
    var course := f.venue + f.distance;
    var tail := f.passing + AgariPart(f.agari) + "→" + RankPart(f.rank) + PopPart(f.popularity);
    var rest2 := f.jockey + " " + tail;
    var rest1 := course + " " + rest2;
    assert FormatHistory(f) == f.date + [' '] + rest1;
    SplitAtFirst(f.date, ' ', rest1);
    SplitAtFirst(course, ' ', rest2);
    SplitAtFirst(f.jockey, ' ', tail);
    TailRoundTrip(f.passing, f.agari, f.rank, f.popularity);
  }

  /** The past-race jockey name holds no space when the list entries hold
      none and the name either holds none or keeps something once cleaned. */
  lemma PastJockeyNameSpaceFree(jockey: string, jockeys: seq<string>)
    requires ' ' !in jockey || Clean(jockey) != []
    requires forall k :: 0 <= k < |jockeys| ==> ' ' !in jockeys[k]
    ensures ' ' !in PastJockeyName(jockey, jockeys)
  {
    if Clean(jockey) != [] {
      assert ' ' !in Clean(jockey);
    }
  }

  /** The fields of a past race are separable when the page's text does
      not hold the separators the line is read back by. */
  lemma FieldsSeparable(race: PastRace, current: string, jockeys: seq<string>)
    requires race.dateBlock.Some? ==> ' ' !in race.dateBlock.value.date
    requires ' ' !in current && ' ' !in race.distance
    requires race.jockeyCell.Some? ==> ' ' !in race.jockeyCell.value || Clean(PastJockeyText(race.jockeyCell)) != []
    requires forall k :: 0 <= k < |jockeys| ==> ' ' !in jockeys[k]
    requires race.passing.Some? ==> forall k :: 0 <= k < |race.passing.value| ==>
      '(' !in race.passing.value[k] && '→' !in race.passing.value[k]
    requires race.agariRank.Some? ==> '→' !in race.agariRank.value
    ensures Separable(Fields(race, current, jockeys))
  {
    var f := Fields(race, current, jockeys);
    PlaceTablesAgree();
    assert ' ' !in f.venue + f.distance;
    PastJockeyNameSpaceFree(PastJockeyText(race.jockeyCell), jockeys);
  }

  /** The history line of a past race reads back as its date (or "不明"),
      course, jockey, passing order, 3F rank, finishing position and
      popularity, provided the page's text does not itself hold the
      separators the line is read back by. */
  lemma HistoryLineReadsBack(race: PastRace, current: string, jockeys: seq<string>)
    requires race.dateBlock.Some? ==> ' ' !in race.dateBlock.value.date
    requires ' ' !in current && ' ' !in race.distance
    requires race.jockeyCell.Some? ==> ' ' !in race.jockeyCell.value || Clean(PastJockeyText(race.jockeyCell)) != []
    requires forall k :: 0 <= k < |jockeys| ==> ' ' !in jockeys[k]
    requires race.passing.Some? ==> forall k :: 0 <= k < |race.passing.value| ==>
      '(' !in race.passing.value[k] && '→' !in race.passing.value[k]
    requires race.agariRank.Some? ==> '→' !in race.agariRank.value
    ensures ParseHistory(HistoryLine(race, current, jockeys)) == Some(ParsedHistory(
      DateText(race.dateBlock),
      ResolveVenue(race.dateBlock, current) + race.distance,
      PastJockeyName(PastJockeyText(race.jockeyCell), jockeys),
      PassingText(race.passing),
      AgariText(race.agariRank),
      RankText(race.rankText),
      PopularityText(race.popularity)))
  {
    FieldsSeparable(race, current, jockeys);
    HistoryRoundTrip(Fields(race, current, jockeys));
  }
}

=== FILE: horses.dfy ===
/** One runner's entry of the race card (keiba_bot.py:86-223, without the
    page traversal): the jockey and trainer normalized against the
    reference lists, the current power, the compatibility figure, up to
    three history lines and the display line. */
module Horses {
  import opened Options
  import opened Names
  import opened History
  import opened Power

  /** What `load_resources` hands the parser. */
  datatype LoadedResources = LoadedResources(jockeys: seq<string>, trainers: seq<string>, power: PowerTable)

  /** The past-race cells `td.cs-z1` to `td.cs-z3`; `None` for a cell that
      is missing or has no text. */
  datatype PastCells = PastCells(z1: Option<PastRace>, z2: Option<PastRace>, z3: Option<PastRace>)

  /** What the page yields for one runner's row. */
  datatype Row = Row(jockeyText: string, trainerText: string, compat: Option<CompatCell>, past: PastCells)

  /** The entry stored under the runner's number. */
  datatype Horse = Horse(
    jockey: string, trainer: string, power: string, compat: string,
    history: seq<string>, displayPower: string)

  /** The race of one cell, if the cell is there. */
  function RaceOf(cell: Option<PastRace>): (races: seq<PastRace>)
    ensures |races| == (if cell.Some? then 1 else 0)
    ensures cell.Some? ==> races[0] == cell.value
  {
    match cell
    case None => []
    case Some(race) => [race]
  }

  /** The number of past-race cells that are there. */
  function PresentCount(past: PastCells): nat {
    (if past.z1.Some? then 1 else 0) + (if past.z2.Some? then 1 else 0) + (if past.z3.Some? then 1 else 0)
  }

  /** The races of the cells that are there, in slot order. */
  function PresentRaces(past: PastCells): (races: seq<PastRace>)
    ensures |races| == PresentCount(past) <= 3
    ensures forall r :: r in races <==> past.z1 == Some(r) || past.z2 == Some(r) || past.z3 == Some(r)
    ensures past.z1.Some? ==> races[0] == past.z1.value
    ensures past.z1.None? && past.z2.Some? ==> races[0] == past.z2.value
    ensures past.z1.Some? && past.z2.Some? ==> races[1] == past.z2.value
    ensures past.z3.Some? ==> races[|races| - 1] == past.z3.value
  {
    var first := RaceOf(past.z1);
    var second := RaceOf(past.z2);
    var third := RaceOf(past.z3);
    assert first == [] ==> first + second + third == second + third;
    first + second + third
  }

  /** `history`: one line per present cell, in slot order (lines 113-210). */
  function Histories(past: PastCells, current: string, jockeys: seq<string>): (history: seq<string>)
    ensures |history| == |PresentRaces(past)|
    ensures forall k :: 0 <= k < |history| ==> history[k] == HistoryLine(PresentRaces(past)[k], current, jockeys)
  {
    var races := PresentRaces(past);
    seq(|races|, k requires 0 <= k < |races| => HistoryLine(races[k], current, jockeys))
  }

  /** The entry of one row, at the meeting held at `place`. */
  function ParseHorse(row: Row, place: string, res: LoadedResources): (h: Horse)
    ensures h.jockey == NormalizeName(row.jockeyText, res.jockeys)
    ensures h.trainer == NormalizeName(row.trainerText, res.trainers)
    ensures |h.history| == PresentCount(row.past)
    ensures h.history == Histories(row.past, place, res.jockeys)
    ensures h.compat == PairStats(row.compat)
    ensures h.displayPower == PowerLine(h.power, PreviousPower(row.past.z1, place, res.jockeys, res.power), h.compat)
    ensures (place, h.jockey) in res.power ==> h.power == "P:" + Shown(res.power[(place, h.jockey)])
    ensures (place, h.jockey) !in res.power ==> h.power == "P:不明"
    ensures '前' !in h.power && '前' !in h.compat ==>
      ('前' in h.displayPower <==>
        var prev := PreviousPower(row.past.z1, place, res.jockeys, res.power);
        prev.Some? && Truthy(prev.value))
  {
    var jockey := NormalizeName(row.jockeyText, res.jockeys);
    var trainer := NormalizeName(row.trainerText, res.trainers);
    var info := CurrentPower(res.power, place, jockey);
    var stats := PairStats(row.compat);
    var prev := PreviousPower(row.past.z1, place, res.jockeys, res.power);
    Horse(jockey, trainer, info, stats, Histories(row.past, place, res.jockeys), PowerLine(info, prev, stats))
  }

  /** The display line depends on the most recent past race only: rows
      that differ only in slots 2 and 3 get the same display line. */
  lemma DisplayPowerIgnoresOlderRaces(row: Row, z2: Option<PastRace>, z3: Option<PastRace>, place: string, res: LoadedResources)
    ensures ParseHorse(row, place, res).displayPower ==
      ParseHorse(row.(past := PastCells(row.past.z1, z2, z3)), place, res).displayPower
  {
  }
}

=== FILE: names.dfy ===
/** `normalize_name` (keiba_bot.py:38-51): an abbreviated jockey or trainer
    name as printed on the race card is cleaned of decoration and resolved
    against a reference list of full names. Also the two small steps that
    feed it for a past race: dropping the carried weight from the jockey
    cell (keiba_bot.py:171) and falling back to that cell when normalizing
    leaves nothing (keiba_bot.py:192-193). */
module Names {
  import opened Strings

  /** Python's `\d`, restricted to ASCII and full-width decimal digits. */
  predicate IsDigit(c: char) {
    '0' <= c <= '9' || '０' <= c <= '９'
  }

  /** The character class `[ 　▲△☆◇★\d\.]` that is stripped from a name:
      spaces, apprentice and weight-allowance marks, digits and dots. */
  predicate IsDecoration(c: char) {
    || c == ' '
    || c == '\U{3000}'
    || c == '▲' || c == '△' || c == '☆' || c == '◇' || c == '★'
    || IsDigit(c)
    || c == '.'
  }

  /** The characters a cleaned name keeps. */
  predicate IsNameChar(c: char) {
    !IsDecoration(c)
  }

  /** The abbreviation with every decoration character removed. */
  function Clean(abbrev: string): (clean: string)
    ensures forall c :: c in clean <==> c in abbrev && !IsDecoration(c)
    ensures |clean| <= |abbrev|
    ensures (forall k :: 0 <= k < |abbrev| ==> !IsDecoration(abbrev[k])) ==> clean == abbrev
  {
    var clean := Filter(abbrev, IsNameChar);
    assert (forall k :: 0 <= k < |abbrev| ==> !IsDecoration(abbrev[k])) ==> clean == abbrev by {
      if forall k :: 0 <= k < |abbrev| ==> !IsDecoration(abbrev[k]) {
        FilterKeepsAll(abbrev, IsNameChar);
      }
    }
    clean
  }

  /** Cleaning works character by character: the cleaned halves, end to end,
      are the cleaned whole, so order and repetition are kept. */
  lemma CleanAppend(a: string, b: string)
    ensures Clean(a + b) == Clean(a) + Clean(b)
  {
    FilterAppend(a, b, IsNameChar);
  }

  /** Cleaning a cleaned name changes nothing. */
  lemma CleanIdempotent(abbrev: string)
    ensures Clean(Clean(abbrev)) == Clean(abbrev)
  {
    FilterIdempotent(abbrev, IsNameChar);
  }

  /** `all(c in full for c in clean)`: every character of the cleaned name
      occurs somewhere in `full`, regardless of order or repetition. */
  predicate Covers(full: string, clean: string) {
    forall c :: c in clean ==> c in full
  }

  /** The `candidates` list: each covering entry, in list order, paired with
      its sort key `len(full) - len(clean)`. */
  function Candidates(clean: string, fullList: seq<string>): (cands: seq<(int, string)>)
    ensures |cands| <= |fullList|
    ensures forall k :: 0 <= k < |cands| ==> Covers(cands[k].1, clean) && cands[k].0 == |cands[k].1| - |clean|
    decreases |fullList|
  {
    if fullList == [] then []
    else
      var init := Candidates(clean, fullList[..|fullList| - 1]);
      var last := fullList[|fullList| - 1];
      if Covers(last, clean) then init + [(|last| - |clean|, last)] else init
  }

  /** The list positions the candidates were taken from. */
  ghost function Origins(clean: string, fullList: seq<string>): (o: seq<nat>)
    ensures |o| == |Candidates(clean, fullList)|
    ensures forall k :: 0 <= k < |o| ==>
      o[k] < |fullList| && Candidates(clean, fullList)[k].1 == fullList[o[k]]
    ensures forall k1, k2 :: 0 <= k1 < k2 < |o| ==> o[k1] < o[k2]
    decreases |fullList|
  {
    if fullList == [] then []
    else
      var n := |fullList| - 1;
      var init := fullList[..n];
      var o := Origins(clean, init);
      var cands := Candidates(clean, init);
      assert forall k :: 0 <= k < |o| ==> init[o[k]] == fullList[o[k]];
      if Covers(fullList[n], clean) then
        assert Candidates(clean, fullList) == cands + [(|fullList[n]| - |clean|, fullList[n])];
        o + [n]
      else
        assert Candidates(clean, fullList) == cands;
        o
  }

  /** Every covering entry is the origin of some candidate. */
  lemma {:induction false} OriginsCover(clean: string, fullList: seq<string>, j: nat)
    requires j < |fullList| && Covers(fullList[j], clean)
    ensures j in Origins(clean, fullList)
    decreases |fullList|
  {
    var n := |fullList| - 1;
    if j < n {
      var init := fullList[..n];
      assert init[j] == fullList[j];
      OriginsCover(clean, init, j);
    }
  }

  /** The keys never decrease along `s`. */
  predicate SortedByKey(s: seq<(int, string)>) {
    forall i, j :: 0 <= i < j < |s| ==> s[i].0 <= s[j].0
  }

  /** Inserts `p` before the first element whose key is not smaller, so it
      stays ahead of the equal keys that follow it in the input. */
  function InsertByKey(p: (int, string), sorted: seq<(int, string)>): (r: seq<(int, string)>)
    ensures |r| == |sorted| + 1
    ensures multiset(r) == multiset(sorted) + multiset{p}
    ensures r[0] == p || (sorted != [] && r[0] == sorted[0])
    decreases |sorted|
  {
    if sorted == [] || p.0 <= sorted[0].0 then [p] + sorted
    else
      var rest := InsertByKey(p, sorted[1..]);
      assert sorted == [sorted[0]] + sorted[1..];
      [sorted[0]] + rest
  }

  /** Inserting into a key-ordered list keeps it key-ordered. */
  lemma {:induction false} InsertKeepsOrder(p: (int, string), sorted: seq<(int, string)>)
    requires SortedByKey(sorted)
    ensures SortedByKey(InsertByKey(p, sorted))
    decreases |sorted|
  {
    if sorted != [] && p.0 > sorted[0].0 {
      var rest := InsertByKey(p, sorted[1..]);
      InsertKeepsOrder(p, sorted[1..]);
      assert sorted[0].0 <= rest[0].0;
      assert InsertByKey(p, sorted) == [sorted[0]] + rest;
    }
  }

  /** Python's stable `sort(key=lambda x: x[0])`. */
  function SortByKey(pairs: seq<(int, string)>): (r: seq<(int, string)>)
    ensures |r| == |pairs|
    ensures multiset(r) == multiset(pairs)
    ensures SortedByKey(r)
    decreases |pairs|
  {
    if pairs == [] then []
    else
      assert pairs == [pairs[0]] + pairs[1..];
      InsertKeepsOrder(pairs[0], SortByKey(pairs[1..]));
      InsertByKey(pairs[0], SortByKey(pairs[1..]))
  }

  /** The position of the first pair whose key is the smallest. */
  function FirstMinKey(pairs: seq<(int, string)>): (i: nat)
    requires |pairs| > 0
    ensures i < |pairs|
    ensures forall j :: 0 <= j < |pairs| ==> pairs[i].0 <= pairs[j].0
    ensures forall j :: 0 <= j < i ==> pairs[j].0 > pairs[i].0
    decreases |pairs|
  {
    if |pairs| == 1 then 0
    else
      var m := FirstMinKey(pairs[1..]) + 1;
      if pairs[0].0 <= pairs[m].0 then 0 else m
  }

  /** The head of the stably sorted list is the first pair of smallest key. */
  lemma {:induction false} SortedHeadIsFirstMin(pairs: seq<(int, string)>)
    requires |pairs| > 0
    ensures SortByKey(pairs)[0] == pairs[FirstMinKey(pairs)]
    decreases |pairs|
  {
    if |pairs| > 1 {
      SortedHeadIsFirstMin(pairs[1..]);
    }
  }

  /** The cleaned name resolved against the list (the part of
      `normalize_name` after the cleaning). */
  function Resolve(clean: string, fullList: seq<string>): (r: string)
    requires clean != []
    ensures r != []
    ensures r == clean || (r in fullList && Covers(r, clean))
  {
    if fullList == [] then clean
    else if clean in fullList then clean
    else
      var cands := Candidates(clean, fullList);
      if cands != [] then
        SortedHeadIsFirstMin(cands);
        var best := SortByKey(cands)[0].1;
        assert best in fullList && Covers(best, clean) by {
          var o := Origins(clean, fullList);
          var m := FirstMinKey(cands);
          assert best == cands[m].1 == fullList[o[m]];
        }
        assert clean[0] in best;
        best
      else clean
  }

  /** `normalize_name(abbrev, full_list)`. */
  function NormalizeName(abbrev: string, fullList: seq<string>): (r: string)
    ensures r == [] <==> Clean(abbrev) == []
    ensures r == Clean(abbrev) || r in fullList
    ensures fullList == [] || Clean(abbrev) in fullList ==> r == Clean(abbrev)
    ensures r != Clean(abbrev) ==> Covers(r, Clean(abbrev))
    ensures (forall j :: 0 <= j < |fullList| ==> !Covers(fullList[j], Clean(abbrev))) ==> r == Clean(abbrev)
  {
    if abbrev == [] then []
    else
      var clean := Clean(abbrev);
      if clean == [] then [] else Resolve(clean, fullList)
  }

  /** Entry `i` covers `clean`, no covering entry is shorter, and no earlier
      covering entry has the same length. */
  ghost predicate IsFirstShortest(fullList: seq<string>, clean: string, i: int) {
    && 0 <= i < |fullList|
    && Covers(fullList[i], clean)
    && forall j :: 0 <= j < |fullList| && Covers(fullList[j], clean) ==>
         |fullList[i]| < |fullList[j]| || (|fullList[i]| == |fullList[j]| && i <= j)
  }

  /** The candidate that sorts first came from the earliest shortest
      covering entry. */
  lemma FirstCandidateIsFirstShortest(clean: string, fullList: seq<string>)
    requires Candidates(clean, fullList) != []
    ensures IsFirstShortest(fullList, clean, Origins(clean, fullList)[FirstMinKey(Candidates(clean, fullList))])
  {
    var cands := Candidates(clean, fullList);
    var o := Origins(clean, fullList);
    var m := FirstMinKey(cands);
    var i := o[m];
    assert cands[m].0 == |fullList[i]| - |clean|;
    forall j | 0 <= j < |fullList| && Covers(fullList[j], clean)
      ensures |fullList[i]| < |fullList[j]| || (|fullList[i]| == |fullList[j]| && i <= j)
    {
      OriginsCover(clean, fullList, j);
      var k :| 0 <= k < |o| && o[k] == j;
      assert cands[k].0 == |fullList[j]| - |clean|;
      if k < m {
        assert cands[k].0 > cands[m].0;
      } else if m < k {
        assert o[m] < o[k];
      }
    }
  }

  /** When the cleaned name is not itself in the list but some entry covers
      it, the result is the shortest covering entry, ties going to the
      earliest. */
  lemma NormalizeNameShortestFirst(abbrev: string, fullList: seq<string>)
    requires Clean(abbrev) != [] && Clean(abbrev) !in fullList
    requires exists j :: 0 <= j < |fullList| && Covers(fullList[j], Clean(abbrev))
    ensures exists i :: IsFirstShortest(fullList, Clean(abbrev), i) && NormalizeName(abbrev, fullList) == fullList[i]
  {
    var clean := Clean(abbrev);
    var j0 :| 0 <= j0 < |fullList| && Covers(fullList[j0], clean);
    var cands := Candidates(clean, fullList);
    var o := Origins(clean, fullList);
    OriginsCover(clean, fullList, j0);
    var m := FirstMinKey(cands);
    SortedHeadIsFirstMin(cands);
    FirstCandidateIsFirstShortest(clean, fullList);
    var i := o[m];
    assert Resolve(clean, fullList) == cands[m].1 == fullList[i];
  }

  /** Normalizing a normalized name changes nothing, provided the list
      entries carry no decoration themselves. */
  lemma NormalizeNameIdempotent(abbrev: string, fullList: seq<string>)
    requires forall k :: 0 <= k < |fullList| ==> Clean(fullList[k]) == fullList[k]
    ensures NormalizeName(NormalizeName(abbrev, fullList), fullList) == NormalizeName(abbrev, fullList)
  {
    var r := NormalizeName(abbrev, fullList);
    var clean := Clean(abbrev);
    if r != [] {
      if r == clean {
        CleanIdempotent(abbrev);
      } else {
        var k :| 0 <= k < |fullList| && fullList[k] == r;
        assert Clean(r) == r;
      }
    }
  }

  /** The characters that survive dropping the weight: all but digits and dots. */
  predicate IsNotWeight(c: char) {
    !IsDigit(c) && c != '.'
  }

  /** `re.sub(r"[\d\.]+", "", j_cand)`: the carried weight removed from a
      past-race jockey cell. */
  function StripWeight(cell: string): (r: string)
    ensures forall c :: c in r <==> c in cell && !IsDigit(c) && c != '.'
    ensures (forall k :: 0 <= k < |cell| ==> !IsDigit(cell[k]) && cell[k] != '.') ==> r == cell
  {
    var r := Filter(cell, IsNotWeight);
    assert (forall k :: 0 <= k < |cell| ==> !IsDigit(cell[k]) && cell[k] != '.') ==> r == cell by {
      if forall k :: 0 <= k < |cell| ==> !IsDigit(cell[k]) && cell[k] != '.' {
        FilterKeepsAll(cell, IsNotWeight);
      }
    }
    r
  }

  /** Dropping the weight works character by character, so the name's
      characters keep their order and repetition. */
  lemma StripWeightAppend(a: string, b: string)
    ensures StripWeight(a + b) == StripWeight(a) + StripWeight(b)
  {
    FilterAppend(a, b, IsNotWeight);
  }

  /** The past-race jockey name: normalized, or the raw name when
      normalizing leaves nothing (a name made only of marks or spaces). */
  function PastJockeyName(jockey: string, jockeys: seq<string>): (r: string)
    ensures r == [] <==> jockey == []
    ensures Clean(jockey) == [] ==> r == jockey
    ensures Clean(jockey) != [] ==> r == Clean(jockey) || (r in jockeys && Covers(r, Clean(jockey)))
    ensures Clean(jockey) != [] ==> r == NormalizeName(jockey, jockeys)
  {
    var full := NormalizeName(jockey, jockeys);
    if full == [] && jockey != [] then jockey else full
  }
}

=== FILE: options.dfy ===
/** The optional value used throughout the model wherever the source tests a
    value for `None` or for an empty match. It is failure-compatible, so a
    chain of partial steps can be written with `:-`. */
module Options {

  datatype Option<+T> = None | Some(value: T) {

    predicate IsFailure() {
      None?
    }

    function PropagateFailure<U>(): Option<U>
      requires None?
    {
      None
    }

    function Extract(): T
      requires Some?
    {
      value
    }
  }

  /** `Some(())` when the condition holds, so that `:- Need(c)` stops a chain otherwise. */
  function Need(condition: bool): (r: Option<()>)
  {
    if condition then Some(()) else None
  }
}

=== FILE: power.dfy ===
/** The jockey-power annotations of a horse (keiba_bot.py:97-107, 195-201,
    212-216): the current power looked up by course and jockey, the
    "previous power" looked up for the most recent past race only, the
    jockey-trainer compatibility figure, and the display line built from
    them. */
module Power {
  import opened Options
  import opened Strings
  import opened Venues
  import opened History

  /** A value of the power column as pandas hands it over: text, or a
      number given by its printed form and whether it is zero (NaN is not
      zero). */
  datatype Cell = Text(text: string) | Number(shown: string, isZero: bool)

  /** Python truthiness of the value (`if prev_power_val:`). */
  predicate Truthy(c: Cell) {
    match c
    case Text(t) => t != []
    case Number(_, isZero) => !isZero
  }

  /** What `f"{val}"` prints for the value. */
  function Shown(c: Cell): string {
    match c
    case Text(t) => t
    case Number(shown, _) => shown
  }

  /** `res["power"]` and `res["power_data"]` together: both are filled from
      the same rows under the same (course, jockey) key, the first with
      `f"P:{val}"` and the second with `val` itself. */
  type PowerTable = map<(string, string), Cell>

  /** `curr_power_info` (line 98). */
  function CurrentPower(table: PowerTable, place: string, jockey: string): (info: string)
    ensures |info| >= 2 && info[..2] == "P:"
    ensures (place, jockey) in table ==> info[2..] == Shown(table[(place, jockey)])
    ensures (place, jockey) !in table ==> info[2..] == "不明"
  {
    if (place, jockey) in table then "P:" + Shown(table[(place, jockey)]) else "P:不明"
  }

  /** `prev_power_val` after the loop: the table's value for the course and
      jockey of the most recent past race. Only slot 1 is looked up, so the
      other slots never matter. */
  function PreviousPower(slot1: Option<PastRace>, current: string, jockeys: seq<string>,
                         table: PowerTable): (prev: Option<Cell>)
    ensures slot1.None? ==> prev.None?
    ensures slot1.Some? ==>
      var f := Fields(slot1.value, current, jockeys);
      && (prev.Some? <==> (f.venue, f.jockey) in table)
      && (prev.Some? ==> prev.value == table[(f.venue, f.jockey)])
  {
    match slot1
    case None => None
    case Some(race) =>
      var f := Fields(race, current, jockeys);
      if (f.venue, f.jockey) in table then Some(table[(f.venue, f.jockey)]) else None
  }

  /** The compatibility cell of the row: its whole text and its three figures. */
  datatype CompatCell = CompatCell(text: string, percent: string, wins: string, total: string)

  /** `pair_stats` (lines 101-107): "-" when the cell is missing or says
      there is no data, otherwise "勝" followed by the figures. */
  function PairStats(cell: Option<CompatCell>): (stats: string)
    ensures stats == "-" <==> cell.None? || Contains(cell.value.text, "データ")
    ensures stats != "-" ==> stats != [] && stats[0] == '勝'
  {
    if cell.Some? && !Contains(cell.value.text, "データ") then
      "勝" + cell.value.percent + "(" + cell.value.wins + "/" + cell.value.total + ")"
    else "-"
  }

  /** Reads a compatibility text "勝r(w/t)" back into its three figures:
      the win rate up to the first "(", the wins up to the first "/", and
      the total up to the closing ")". */
  function ReadPairStats(stats: string): Option<(string, string, string)> {
    var _ :- Need(stats != [] && stats[0] == '勝');
    var p :- SplitAt(stats[1..], '(');
    var q :- SplitAt(p.1, '/');
    var _ :- Need(q.1 != [] && q.1[|q.1| - 1] == ')');
    Some((p.0, q.0, q.1[..|q.1| - 1]))
  }

  /** The figures of a compatibility cell with data come back out of its
      text, provided the rate holds no "(" and the wins no "/". */
  lemma PairStatsReadsBack(cell: CompatCell)
    requires !Contains(cell.text, "データ")
    requires '(' !in cell.percent && '/' !in cell.wins
    ensures ReadPairStats(PairStats(Some(cell))) == Some((cell.percent, cell.wins, cell.total))
  {
    var closed := cell.total + ")";
    var afterRate := cell.wins + ['/'] + closed;
    var stats := PairStats(Some(cell));
    assert stats == "勝" + (cell.percent + ['('] + afterRate);
    assert stats[1..] == cell.percent + ['('] + afterRate;
    SplitAtFirst(cell.percent, '(', afterRate);
    SplitAtFirst(cell.wins, '/', closed);
    assert closed[..|closed| - 1] == cell.total;
  }

  /** `power_line` (lines 213-216). */
  function PowerLine(info: string, prev: Option<Cell>, pairStats: string): (line: string)
    ensures |line| >= |"【騎手】" + info| && line[..|"【騎手】" + info|] == "【騎手】" + info
    ensures |line| >= |"、 相性:" + pairStats| && line[|line| - |"、 相性:" + pairStats|..] == "、 相性:" + pairStats
    ensures '前' !in info && '前' !in pairStats ==> ('前' in line <==> prev.Some? && Truthy(prev.value))
    ensures prev.Some? && Truthy(prev.value) ==> Contains(line, "(前P:" + Shown(prev.value) + ")")
    ensures |"【騎手】" + info| <= |line| - |"、 相性:" + pairStats|
    ensures line[|"【騎手】" + info|..|line| - |"、 相性:" + pairStats|] ==
      if prev.Some? && Truthy(prev.value) then "(前P:" + Shown(prev.value) + ")" else []
  {
    var head := "【騎手】" + info;
    var tail := "、 相性:" + pairStats;
    if prev.Some? && Truthy(prev.value) then
      var note := "(前P:" + Shown(prev.value) + ")";
      assert '前' in note by { assert note[1] == '前'; }
      var line := head + note + tail;
      assert note <= line[|head|..];
      assert line[|head|..|line| - |tail|] == note;
      line
    else
      var line := head + tail;
      assert line[|head|..|line| - |tail|] == [];
      line
  }
}

=== FILE: race_title.dfy ===
/** The grade of a race, taken from its title (keiba_bot.py:59-62): the
    title is split on runs of ASCII and ideographic spaces and the grade is
    the last piece, or empty when the title has no space at all. */
module RaceTitle {
  import opened Options
  import opened Strings

  /** The separator class `[ 　]` of the split. */
  predicate IsTitleSpace(c: char) {
    c == ' ' || c == '\U{3000}'
  }

  /** No separator occurs in `s`. */
  predicate SpaceFree(s: string) {
    forall k :: 0 <= k < |s| ==> !IsTitleSpace(s[k])
  }

  /** The position of the last separator, if any. */
  function LastSpace(s: string): (r: Option<nat>)
    ensures r.Some? ==> r.value < |s| && IsTitleSpace(s[r.value])
    ensures r.Some? ==> forall k :: r.value < k < |s| ==> !IsTitleSpace(s[k])
    ensures r.None? <==> SpaceFree(s)
    decreases |s|
  {
    if s == [] then None
    else if IsTitleSpace(s[|s| - 1]) then Some(|s| - 1)
    else
      var r := LastSpace(s[..|s| - 1]);
      assert r.Some? ==> s[..|s| - 1][r.value] == s[r.value];
      r
  }

  /** `t` is the longest separator-free suffix of `title`. */
  ghost predicate IsLastWord(title: string, t: string) {
    && |t| <= |title|
    && t == title[|title| - |t|..]
    && SpaceFree(t)
    && (|t| < |title| ==> IsTitleSpace(title[|title| - |t| - 1]))
  }

  /** `re.split(r'[ 　]+', title)`: the pieces between maximal runs of
      separators, with an empty piece before a leading run and after a
      trailing one. The runs are found from the end, so the last piece is the
      text after the last separator. */
  function SplitTitle(title: string): (parts: seq<string>)
    ensures |parts| >= 1
    ensures forall k :: 0 <= k < |parts| ==> SpaceFree(parts[k])
    ensures IsLastWord(title, parts[|parts| - 1])
    ensures |parts| > 1 <==> !SpaceFree(title)
    decreases |title|
  {
    match LastSpace(title)
    case None => [title]
    case Some(i) =>
      var head := title[..i + 1];
      var start := |head| - TrailingRun(head, IsTitleSpace);
      var last := title[i + 1..];
      assert SpaceFree(last) by {
        forall k | 0 <= k < |last| ensures !IsTitleSpace(last[k]) {
          assert last[k] == title[i + 1 + k];
        }
      }
      SplitTitle(title[..start]) + [last]
  }

  /** `data["meta"]["grade"]`: absent when the title is empty, otherwise the
      text after the title's last space, or empty when it has none. */
  function Grade(title: string): (grade: Option<string>)
    ensures grade.None? <==> title == []
    ensures grade.Some? && SpaceFree(title) ==> grade.value == []
    ensures grade.Some? && !SpaceFree(title) ==> IsLastWord(title, grade.value) && |grade.value| < |title|
  {
    if title == [] then None
    else
      var parts := SplitTitle(title);
      Some(if |parts| > 1 then parts[|parts| - 1] else [])
  }
}

=== FILE: resources.dfy ===
/** The name-list half of `load_resources` (keiba_bot.py:8-14) as a pure
    transform of the file's lines: blank lines are skipped and every other
    line is stripped and loses its commas, spaces and ideographic spaces. */
module Resources {
  import opened Strings

  /** The characters a cleaned list line keeps: all but the comma and the
      two kinds of space. */
  predicate IsKeptInList(c: char) {
    c != ',' && c != ' ' && c != '\U{3000}'
  }

  /** `l.strip().replace(",", "").replace(" ", "").replace("　", "")`. */
  function CleanListLine(line: string): (r: string)
    ensures r == Filter(Strip(line), IsKeptInList)
    ensures ',' !in r && ' ' !in r && '\U{3000}' !in r
  {
    var stripped := Strip(line);
    var noComma := RemoveAll(stripped, ",");
    var noSpace := RemoveAll(noComma, " ");
    var r := RemoveAll(noSpace, "\U{3000}");
    var p := (x: char) => x != ',';
    var q := (x: char) => x != ' ';
    var u := (x: char) => x != '\U{3000}';
    RemoveCharIsFilter(stripped, ',', p);
    RemoveCharIsFilter(noComma, ' ', q);
    RemoveCharIsFilter(noSpace, '\U{3000}', u);
    var pq := (x: char) => x != ',' && x != ' ';
    FilterTwice(stripped, p, q, pq);
    FilterTwice(stripped, pq, u, IsKeptInList);
    r
  }

  /** A line that is empty once stripped; the loader skips it. */
  predicate IsBlank(line: string) {
    Strip(line) == []
  }

  /** The list comprehension over the file's lines, keeping lines that are
      not blank. */
  function LoadNameList(lines: seq<string>): (names: seq<string>)
    ensures |names| <= |lines|
    ensures forall name :: name in names ==> ',' !in name && ' ' !in name && '\U{3000}' !in name
    decreases |lines|
  {
    if lines == [] then []
    else if IsBlank(lines[0]) then LoadNameList(lines[1..])
    else [CleanListLine(lines[0])] + LoadNameList(lines[1..])
  }

  /** One line loads as nothing when it is blank and as its cleaned text
      otherwise. */
  lemma LoadNameListLine(line: string)
    ensures LoadNameList([line]) == if IsBlank(line) then [] else [CleanListLine(line)]
  {
    assert [line][1..] == [];
  }

  /** Loading works line by line: a file that is two files end to end loads
      as the two lists end to end. */
  lemma {:induction false} LoadNameListAppend(a: seq<string>, b: seq<string>)
    ensures LoadNameList(a + b) == LoadNameList(a) + LoadNameList(b)
    decreases |a|
  {
    if a == [] {
      assert a + b == b;
    } else {
      assert (a + b)[0] == a[0];
      assert (a + b)[1..] == a[1..] + b;
      LoadNameListAppend(a[1..], b);
    }
  }
}

=== FILE: strings.dfy ===
/** The handful of Python `str` operations the scraper relies on, stated over
    `seq<char>`: filtering characters out (what `re.sub` with a character
    class and an empty replacement does), `str.replace(pat, "")`, `in`,
    `str.join` and `str.strip()`. `SplitOn` is not used by the scraper: it
    is the inverse that shows `Join` loses nothing. */
module Strings {
  import opened Options

  /** The characters Python's `str.isspace` accepts, which `str.strip()` removes. */
  predicate IsWhitespace(c: char) {
    || c == ' '
    || '\t' <= c <= '\r'
    || '\U{1C}' <= c <= '\U{1F}'
    || c == '\U{85}'
    || c == '\U{A0}'
    || c == '\U{1680}'
    || '\U{2000}' <= c <= '\U{200A}'
    || c == '\U{2028}'
    || c == '\U{2029}'
    || c == '\U{202F}'
    || c == '\U{205F}'
    || c == '\U{3000}'
  }

  /** The characters of `s` that `keep` accepts, in their original order. */
  function Filter(s: string, keep: char -> bool): (r: string)
    ensures |r| <= |s|
    ensures forall c :: c in r <==> c in s && keep(c)
    decreases |s|
  {
    if s == [] then []
    else if keep(s[0]) then [s[0]] + Filter(s[1..], keep)
    else Filter(s[1..], keep)
  }

  /** Filtering distributes over concatenation, so it works character by character. */
  lemma {:induction false} FilterAppend(a: string, b: string, keep: char -> bool)
    ensures Filter(a + b, keep) == Filter(a, keep) + Filter(b, keep)
    decreases |a|
  {
    if a == [] {
      assert a + b == b;
    } else {
      assert (a + b)[0] == a[0];
      assert (a + b)[1..] == a[1..] + b;
      FilterAppend(a[1..], b, keep);
    }
  }

  /** Filtering twice with the same test removes nothing more. */
  lemma {:induction false} FilterIdempotent(s: string, keep: char -> bool)
    ensures Filter(Filter(s, keep), keep) == Filter(s, keep)
    decreases |s|
  {
    if s != [] {
      FilterIdempotent(s[1..], keep);
      if keep(s[0]) {
        var t := Filter(s[1..], keep);
        assert ([s[0]] + t)[0] == s[0];
        assert ([s[0]] + t)[1..] == t;
      }
    }
  }

  /** Text whose every character passes the test comes through whole. */
  lemma {:induction false} FilterKeepsAll(s: string, keep: char -> bool)
    requires forall k :: 0 <= k < |s| ==> keep(s[k])
    ensures Filter(s, keep) == s
    decreases |s|
  {
    if s != [] {
      assert keep(s[0]);
      FilterKeepsAll(s[1..], keep);
    }
  }

  /** Filtering with one test and then another keeps the characters that
      pass both, which is filtering once with a test that asks for both. */
  lemma {:induction false} FilterTwice(s: string, p: char -> bool, q: char -> bool, both: char -> bool)
    requires forall c :: both(c) == (p(c) && q(c))
    ensures Filter(Filter(s, p), q) == Filter(s, both)
    decreases |s|
  {
    if s != [] {
      FilterTwice(s[1..], p, q, both);
      if p(s[0]) {
        var t := Filter(s[1..], p);
        assert ([s[0]] + t)[0] == s[0];
        assert ([s[0]] + t)[1..] == t;
      }
    }
  }

  /** The position of the first character satisfying `p`, if any. */
  function FirstIndex(s: string, p: char -> bool): (r: Option<nat>)
    ensures r.Some? ==> r.value < |s| && p(s[r.value])
    ensures r.Some? ==> forall k :: 0 <= k < r.value ==> !p(s[k])
    ensures r.None? ==> forall k :: 0 <= k < |s| ==> !p(s[k])
    decreases |s|
  {
    if s == [] then None
    else if p(s[0]) then Some(0)
    else match FirstIndex(s[1..], p)
      case None => None
      case Some(i) => Some(i + 1)
  }

  /** The length of the longest prefix of `s` whose characters satisfy `p`. */
  function LeadingRun(s: string, p: char -> bool): (n: nat)
    ensures n <= |s|
    ensures forall k :: 0 <= k < n ==> p(s[k])
    ensures n == |s| || !p(s[n])
    decreases |s|
  {
    if s != [] && p(s[0]) then LeadingRun(s[1..], p) + 1 else 0
  }

  /** The length of the longest suffix of `s` whose characters satisfy `p`. */
  function TrailingRun(s: string, p: char -> bool): (n: nat)
    ensures n <= |s|
    ensures forall k :: |s| - n <= k < |s| ==> p(s[k])
    ensures n == |s| || !p(s[|s| - n - 1])
    decreases |s|
  {
    if s != [] && p(s[|s| - 1]) then TrailingRun(s[..|s| - 1], p) + 1 else 0
  }

  /** `s[i..j]` is what remains of `s` once text before `i` and from `j`
      on, all of whose characters satisfy `p`, is cut away. */
  ghost predicate TrimmedAt(s: string, p: char -> bool, i: int, j: int) {
    && 0 <= i <= j <= |s|
    && (forall k :: 0 <= k < i ==> p(s[k]))
    && (forall k :: j <= k < |s| ==> p(s[k]))
  }

  /** A leading run of `p` that stops at a character failing `p`, and a
      trailing run of `p` that is as long as it can be, leave a nonempty
      trimmed slice between them that ends with a character failing `p`. */
  lemma TrimRuns(s: string, p: char -> bool, i: nat, n: nat)
    requires i < |s| && !p(s[i]) && forall k :: 0 <= k < i ==> p(s[k])
    requires n <= |s| && forall k :: |s| - n <= k < |s| ==> p(s[k])
    requires n == |s| || !p(s[|s| - n - 1])
    ensures i < |s| - n && TrimmedAt(s, p, i, |s| - n)
    ensures !p(s[|s| - n - 1])
  {
  }

  /** Python's `s.strip()`: leading and trailing whitespace removed. */
  function Strip(s: string): (r: string)
    ensures exists i, j :: TrimmedAt(s, IsWhitespace, i, j) && r == s[i..j]
    ensures r == [] <==> forall k :: 0 <= k < |s| ==> IsWhitespace(s[k])
    ensures r != [] ==> !IsWhitespace(r[0]) && !IsWhitespace(r[|r| - 1])
  {
    var i := LeadingRun(s, IsWhitespace);
    if i == |s| then
      assert TrimmedAt(s, IsWhitespace, i, i);
      []
    else
      var n := TrailingRun(s, IsWhitespace);
      TrimRuns(s, IsWhitespace, i, n);
      var r := s[i..|s| - n];
      assert r[0] == s[i] && r[|r| - 1] == s[|s| - n - 1];
      r
  }

  /** Python's `pat in s` for two strings. */
  predicate Contains(s: string, pat: string) {
    exists i :: 0 <= i <= |s| && pat <= s[i..]
  }

  /** Python's `s.replace(pat, "")`: occurrences of `pat`, found from left to
      right without overlapping, are deleted. */
  function RemoveAll(s: string, pat: string): (r: string)
    requires pat != []
    ensures |r| <= |s|
    ensures forall c :: c in r ==> c in s
    decreases |s|
  {
    if s == [] then []
    else if pat <= s then RemoveAll(s[|pat|..], pat)
    else [s[0]] + RemoveAll(s[1..], pat)
  }

  /** Text in which `pat` does not occur comes back unchanged. */
  lemma {:induction false} RemoveAllAbsent(s: string, pat: string)
    requires pat != []
    requires !Contains(s, pat)
    ensures RemoveAll(s, pat) == s
    decreases |s|
  {
    if s != [] {
      assert s[0..] == s;
      assert !(pat <= s);
      assert !Contains(s[1..], pat);
      RemoveAllAbsent(s[1..], pat);
    }
  }

  /** `pat` occurs in `s` at position `k`. */
  predicate OccursAt(s: string, pat: string, k: nat) {
    k <= |s| && pat <= s[k..]
  }

  /** Text that leads up to the first occurrence of `pat` is kept, that
      occurrence is deleted, and the deleting goes on after it. */
  lemma {:induction false} RemoveAllFirst(a: string, pat: string, b: string)
    requires pat != []
    requires forall k: nat :: k < |a| ==> !OccursAt(a + pat + b, pat, k)
    ensures RemoveAll(a + pat + b, pat) == a + RemoveAll(b, pat)
    decreases |a|
  {
    var s := a + pat + b;
    if a == [] {
      assert s == pat + b;
      assert pat <= s;
      assert s[|pat|..] == b;
    } else {
      assert s[0..] == s;
      assert !OccursAt(s, pat, 0);
      assert s[1..] == a[1..] + pat + b;
      forall k: nat | k < |a[1..]|
        ensures !OccursAt(a[1..] + pat + b, pat, k)
      {
        assert !OccursAt(s, pat, k + 1);
        assert s[k + 1..] == (a[1..] + pat + b)[k..];
      }
      RemoveAllFirst(a[1..], pat, b);
      assert a == [a[0]] + a[1..];
    }
  }

  /** `s.replace(c, "")` for a one-character `c` keeps exactly the other
      characters, in order: it is the filter by any test that rejects `c`
      alone. */
  lemma {:induction false} RemoveCharIsFilter(s: string, c: char, keep: char -> bool)
    requires forall x :: keep(x) == (x != c)
    ensures RemoveAll(s, [c]) == Filter(s, keep)
    decreases |s|
  {
    if s != [] {
      RemoveCharIsFilter(s[1..], c, keep);
      if [c] <= s {
        assert s[0] == c;
      }
    }
  }

  /** Deleting a one-character pattern leaves no copy of that character. */
  lemma {:induction false} RemoveCharGone(s: string, c: char)
    ensures c !in RemoveAll(s, [c])
    decreases |s|
  {
    if s != [] {
      RemoveCharGone(s[1..], c);
      if !([c] <= s) {
        assert s[0] != c;
      }
    }
  }

  /** Python's `sep.join(parts)`. */
  function Join(parts: seq<string>, sep: string): (r: string)
    ensures parts != [] ==> parts[0] <= r
    ensures |parts| > 1 ==> parts[0] + sep <= r
    decreases |parts|
  {
    if parts == [] then []
    else if |parts| == 1 then parts[0]
    else parts[0] + sep + Join(parts[1..], sep)
  }

  /** A character of a joined string comes from a part or from the separator. */
  lemma {:induction false} JoinChars(parts: seq<string>, sep: string, c: char)
    requires c in Join(parts, sep)
    ensures c in sep || exists k :: 0 <= k < |parts| && c in parts[k]
    decreases |parts|
  {
    if |parts| > 1 {
      if c !in parts[0] && c !in sep {
        JoinChars(parts[1..], sep, c);
        var k :| 0 <= k < |parts[1..]| && c in parts[1..][k];
        assert parts[1..][k] == parts[k + 1];
      }
    }
  }

  /** The text before and after the first `c` in `s`, if `c` occurs. */
  function SplitAt(s: string, c: char): (r: Option<(string, string)>)
    ensures r.None? <==> c !in s
    ensures r.Some? ==> c !in r.value.0 && s == r.value.0 + [c] + r.value.1
  {
    match FirstIndex(s, x => x == c)
    case None => None
    case Some(i) =>
      assert s == s[..i] + [c] + s[i + 1..];
      Some((s[..i], s[i + 1..]))
  }

  /** The first `c` is found right after a prefix free of `c`. */
  lemma SplitAtFirst(a: string, c: char, b: string)
    requires c !in a
    ensures SplitAt(a + [c] + b, c) == Some((a, b))
  {
    var s := a + [c] + b;
    assert s[|a|] == c;
    var r := SplitAt(s, c);
    assert r.Some?;
    var (x, y) := r.value;
    assert x == s[..|a|] == a;
    assert y == s[|a| + 1..] == b;
  }

  /** Splitting at every `c`, as Python's `s.split(c)` would; it serves
      only as the inverse of `Join`. */
  function SplitOn(s: string, c: char): (parts: seq<string>)
    ensures |parts| >= 1
    decreases |s|
  {
    match SplitAt(s, c)
    case None => [s]
    case Some((before, after)) => [before] + SplitOn(after, c)
  }

  /** Splitting text that starts with a `c`-free prefix and a `c` gives the
      prefix, then the split of the rest. */
  lemma SplitOnStep(a: string, c: char, b: string)
    requires c !in a
    ensures SplitOn(a + [c] + b, c) == [a] + SplitOn(b, c)
  {
    SplitAtFirst(a, c, b);
  }

  /** Splitting what `Join` glued together gives the parts back, provided
      no part contains the separator (an empty list joins to the empty
      string, which splits to one empty part, so it is excluded). */
  lemma {:induction false} SplitOnJoin(parts: seq<string>, c: char)
    requires |parts| > 0
    requires forall k :: 0 <= k < |parts| ==> c !in parts[k]
    ensures SplitOn(Join(parts, [c]), c) == parts
    decreases |parts|
  {
    if |parts| == 1 {
      assert SplitAt(parts[0], c).None?;
    } else {
      var rest := Join(parts[1..], [c]);
      assert Join(parts, [c]) == parts[0] + [c] + rest;
      SplitOnStep(parts[0], c, rest);
      SplitOnJoin(parts[1..], c);
      assert parts == [parts[0]] + parts[1..];
    }
  }
}

=== FILE: venues.dfy ===
/** Where a past race was run (keiba_bot.py:72-74, 120-143). The block of
    the past-race cell that holds the date and the course is searched,
    once the date itself has been cut out of it, first for a full course
    name and then for a one-character abbreviation; the current course is
    assumed when neither occurs. */
module Venues {
  import opened Options
  import opened Strings

  /** `PLACE_MAP` in insertion order: abbreviation and full course name. */
  const PlaceMap: seq<(string, string)> := [
    ("船", "船橋"), ("大", "大井"), ("川", "川崎"), ("浦", "浦和"), ("門", "門別"),
    ("盛", "盛岡"), ("水", "水沢"), ("笠", "笠松"), ("名", "名古屋"), ("園", "園田"),
    ("姫", "姫路"), ("高", "高知"), ("佐", "佐賀")]

  /** `KNOWN_PLACES`, spelled out. */
  const KnownPlaces: seq<string> := [
    "船橋", "大井", "川崎", "浦和", "門別", "盛岡", "水沢", "笠松", "名古屋", "園田",
    "姫路", "高知", "佐賀", "JRA"]

  /** The keys of `PLACE_MAP`, in insertion order. */
  const Abbreviations: seq<string> := ["船", "大", "川", "浦", "門", "盛", "水", "笠", "名", "園", "姫", "高", "佐"]

  /** `KNOWN_PLACES` is `list(PLACE_MAP.values()) + ["JRA"]`, the
      abbreviations are the map's keys in the same order, and no course
      name holds a space. */
  lemma PlaceTablesAgree()
    ensures |KnownPlaces| == |PlaceMap| + 1 && KnownPlaces[|PlaceMap|] == "JRA"
    ensures forall k :: 0 <= k < |PlaceMap| ==> KnownPlaces[k] == PlaceMap[k].1
    ensures |Abbreviations| == |PlaceMap|
    ensures forall k :: 0 <= k < |PlaceMap| ==> Abbreviations[k] == PlaceMap[k].0
    ensures forall k :: 0 <= k < |KnownPlaces| ==> ' ' !in KnownPlaces[k]
  {
  }

  /** The date-and-course block of a past-race cell: its text, and the date
      the pattern `\d+\.\d+\.\d+` found in it (empty when none was found). */
  datatype DateBlock = DateBlock(text: string, date: string)

  /** `rem_text`: the block's text with the date cut out. */
  function SearchText(block: DateBlock): (rem: string)
    ensures |rem| <= |block.text|
    ensures block.date == [] || !Contains(block.text, block.date) ==> rem == block.text
  {
    if block.date == [] then block.text
    else
      assert !Contains(block.text, block.date) ==> RemoveAll(block.text, block.date) == block.text by {
        if !Contains(block.text, block.date) {
          RemoveAllAbsent(block.text, block.date);
        }
      }
      RemoveAll(block.text, block.date)
  }

  /** The date is cut out of the text: what precedes its first occurrence
      is kept, the occurrence is dropped, and the cutting goes on after it. */
  lemma SearchTextCutsDate(before: string, date: string, after: string)
    requires date != []
    requires forall k: nat :: k < |before| ==> !OccursAt(before + date + after, date, k)
    ensures SearchText(DateBlock(before + date + after, date)) == before + SearchText(DateBlock(after, date))
  {
    RemoveAllFirst(before, date, after);
  }

  /** `names[i]` occurs in `text` and no earlier name does. */
  ghost predicate IsFirstContained(text: string, names: seq<string>, i: int) {
    && 0 <= i < |names|
    && Contains(text, names[i])
    && forall j :: 0 <= j < i ==> !Contains(text, names[j])
  }

  /** The first of `names` that occurs in `text`, if any: the `for ... if kp
      in rem_text: ... break` search. */
  function FirstContained(text: string, names: seq<string>): (r: Option<nat>)
    ensures r.Some? ==> IsFirstContained(text, names, r.value)
    ensures r.None? ==> forall j :: 0 <= j < |names| ==> !Contains(text, names[j])
    decreases |names|
  {
    if names == [] then None
    else if Contains(text, names[0]) then Some(0)
    else match FirstContained(text, names[1..])
      case None => None
      case Some(k) => Some(k + 1)
  }

  /** The venue the search should settle on, stated without the search:
      the first full name that occurs in `text`; failing that, the full
      name of the first abbreviation that occurs; failing that, `current`. */
  ghost predicate IsResolvedVenue(text: string, venue: string, current: string) {
    if exists k :: 0 <= k < |KnownPlaces| && Contains(text, KnownPlaces[k]) then
      exists i :: IsFirstContained(text, KnownPlaces, i) && venue == KnownPlaces[i]
    else if exists k :: 0 <= k < |Abbreviations| && Contains(text, Abbreviations[k]) then
      exists i :: IsFirstContained(text, Abbreviations, i) && venue == PlaceMap[i].1
    else
      venue == current
  }

  /** `place_short` after line 143: the venue of a past race, given the
      date block if the cell has one and the venue of the current meeting. */
  function ResolveVenue(block: Option<DateBlock>, current: string): (venue: string)
    ensures venue in KnownPlaces || venue == current
    ensures block.None? ==> venue == current
    ensures block.Some? ==> IsResolvedVenue(SearchText(block.value), venue, current)
  {
    match block
    case None => current
    case Some(b) =>
      var rem := SearchText(b);
      match FirstContained(rem, KnownPlaces)
      case Some(i) => KnownPlaces[i]
      case None =>
        match FirstContained(rem, Abbreviations)
        case Some(i) =>
          PlaceTablesAgree();
          PlaceMap[i].1
        case None => current
  }

  /** `d_txt` after line 142: the date found in the block, or "不明". */
  function DateText(block: Option<DateBlock>): (date: string)
    ensures date != []
    ensures block.Some? && block.value.date != [] ==> date == block.value.date
    ensures block.None? || block.value.date == [] ==> date == "不明"
  {
    match block
    case Some(b) => if b.date != [] then b.date else "不明"
    case None => "不明"
  }
}
